=== FILE: README.md ===
# Rank predictor: eligibility matcher and report layout

This project models the two pure pieces of the AP EAPCET rank predictor, a
Streamlit app:

- **The eligibility matcher.** A candidate picks a caste/gender category
  (a rank column such as `OC_BOYS`), types a rank, and may restrict the
  answer to some branches, districts and regions. The matcher checks the
  typed rank and clears blank cells in the rank column. It then applies
  the three optional selections, coerces the rank column to numbers and
  drops what does not coerce. It keeps the rows whose cutoff rank lies in
  `[max(0, rank - 5000), rank + 25000]`, projects the displayed columns,
  and sorts by cutoff rank.
- **The report layout.** The answer becomes a grid of bordered cells. Each
  cell is a `Box(width, text)`: a header row of clipped column names, then
  one row per answer row. The widths come from a fixed table plus defaults.
  Body texts are the cells' display strings, clipped at 50 characters.
- **The two rank-column tests.** The list of selectable categories uses
  substring containment (`_BOYS`/`_GIRLS` anywhere in the name). The report
  layout uses a suffix test. They are modelled separately; the suffix test
  is proved stricter, and a name is given on which they differ.

The modules:

- `Wrappers`: `Option` and `Result`.
- `Text`: Python's `strip`, `isdigit` restricted to ASCII, decimal rendering
  and parsing, `startswith`/`endswith`/`in`, and slicing.
- `Records`: cells, rows as maps from column name to an optional cell, and
  tables.
- `Columns`: the column names and the two rank-column tests.
- `Seqs`: a filter that may also rewrite what it keeps (the data-frame
  masks, assignments and projections), insertion sort by an integer key,
  and flattening a grid.
- `Matcher`: the matcher, written stage by stage as the program computes
  it. Next to it is a row-at-a-time reference (`Eligible`, `Shape`,
  `Expected`), and the staged pipeline is proved equal to it.
- `Report`: widths, header and body texts, the grid, and the emitted stream
  of boxes.
- `Predictor`: facts about a report drawn from a matcher answer.

The matcher returns `Err(UnknownCategory)` when the category is not a rank
column of the table. The program never reaches that case with a real
column: the selectbox at line 92 offers only the columns `get_rank_columns`
returns. When the table has no rank column, the selectbox yields `None`
and line 94 raises a `KeyError`. It returns `Err(InvalidRank)` when the typed rank is not a
digit string after stripping, or has more than 4300 digits. It returns `Err(MissingColumn)` when a
selection is non-empty but its column (`branch_code`, `DIST` or `A_REG`)
is absent, where the program raises a `KeyError`. Otherwise it returns
`Ok` with the answer table.

Notes on what the code does:

- The rank `0` is accepted. The code tests only `isdigit`, not positivity.
- The guard at line 112 uses Python's `isdigit` and line 116 uses `int`.
  `isdigit` holds of more characters than `int` reads, so some ranks pass
  the guard and then raise (see Findings). Digits of other scripts pass
  both, so the program accepts `٣` as rank 3.
- `int` refuses a decimal string of more than 4300 digits, the default
  limit of `sys.get_int_max_str_digits()` (Python 3.11 on, and the
  September 2022 security releases of 3.7 to 3.10). A rank of
  4301 ASCII digits passes the guard and then raises (see Findings).
- The sort is pandas' default kind, which is not stable. No tie order is
  claimed; `SortBy` promises only order by key and a permutation.
- A missing category or selection column is a `KeyError` in the code. The
  model calls these `UnknownCategory` and `MissingColumn`.
- The first suffix-tagged column gets 25 mm, which is also the default
  width. So that rule cannot be observed. `RankColumnWidth` and
  `AnswerRankColumnWidth` prove every rank column gets 25 mm either way.

## Model

| member | source | states |
|---|---|---|
| Text.Strip | python.py:112 | The stripped text has no whitespace at either end, is no longer than the input, and is empty exactly when the input is all whitespace |
| Text.StripPadded | python.py:112 | Stripping `a + m + b`, with `a` and `b` all whitespace and `m` without whitespace at its ends, gives exactly `m` |
| Text.ParseInt | python.py:127 | A cell text reads as an integer exactly when it is ASCII digits with an optional leading `-` or `+`; the value is the digits' decimal value, negated after `-` (`+7` is 7, `-007` is -7) |
| Text.ShowInt | python.py:71 | The decimal rendering of an integer is non-empty and starts with `-` exactly when the integer is negative |
| Text.ParseShowInt | python.py:127 | The decimal rendering of any integer reads back as that integer |
| Text.ContainsIffOccurs | python.py:20 | Substring containment holds exactly when the pattern occurs at some index of the text |
| Text.Take | python.py:64 | Slicing `[:n]` gives a prefix of the text, of length `n` or the whole text when shorter |
| Columns.RankColumns | python.py:19-20 | The selectable categories are exactly the column names containing `_BOYS` or `_GIRLS` |
| Columns.FirstRankIndex | python.py:52-54 | Finds the first column ending in `_BOYS` or `_GIRLS`; no earlier column does, and `None` means no column does |
| Columns.MentionsCategory | python.py:20 | (definition) The test of `get_rank_columns`: the name contains `_BOYS` or `_GIRLS` anywhere |
| Columns.EndsWithCategory | python.py:52 | (definition) The test of the report layout: the name ends with `_BOYS` or `_GIRLS` |
| Columns.SuffixTestIsStricter | python.py:52 | Every name the suffix test accepts, the containment test of line 20 accepts |
| Columns.TestsDiffer | python.py:52 | `OC_BOYS_2023` passes the containment test but fails the suffix test, so the two tests are different predicates |
| Columns.FixedColumnsAreNotRankColumns | python.py:41-50 | None of the eight fixed column names contains a category tag |
| Columns.RankColumnIsNotFixed | python.py:135-137 | A rank column is never one of the fixed displayed columns |
| Matcher.ParseRank | python.py:112-116 | A typed rank is accepted exactly when its stripped form is a non-empty ASCII digit string of at most 4300 digits, with that string's decimal value; blank input is rejected |
| Matcher.ParseRankPadded | python.py:112-116 | Any ASCII digit string of at most 4300 digits typed with whitespace around it is accepted with its decimal value, leading zeros included |
| Matcher.ParseRankPaddedShowNat | python.py:112-116 | The decimal rendering of a number, when it has at most 4300 digits and is typed with whitespace around it, is accepted as that number |
| Matcher.ParseRankRejectsSign | python.py:112 | A number typed with a leading `-` or `+` is rejected |
| Matcher.DecimalValue | python.py:116 | The digit value `int` gives a character: an ASCII digit its ordinary value, any digit a value below 10 |
| Matcher.IsDigitOnly | python.py:112 | (definition) The listed characters `isdigit` accepts but `int` does not read: superscript, subscript, circled, parenthesised and full-stop digits |
| Matcher.DecimalsValue | python.py:116 | (definition) `int` on a string of characters it reads as digits: the decimal value of their digit values |
| Matcher.DecimalsValueAscii | python.py:116 | On ASCII digits, `int` over the listed Unicode digits computes the ordinary decimal value |
| Matcher.ParseRankAsWritten | python.py:112-116 | As written, the check rejects exactly the texts whose stripped form is empty or holds a character outside the listed `isdigit` characters; it accepts exactly the texts of at most 4300 characters that `int` reads as digits; it raises only when such a text is longer or a character `int` does not read is present; it accepts an ASCII digit string of at most 4300 digits with its decimal value |
| Matcher.SuperscriptRankRaises | python.py:112-116 | The ranks `²`, `⁴` and `₂` pass the `isdigit` guard and then make `int` raise |
| Matcher.LongRankRaises | python.py:112-116 | A rank of 4301 ASCII digits passes the `isdigit` guard and then makes `int` raise; `ParseRank` rejects it |
| Matcher.OtherScriptRankAccepted | python.py:112-116 | The program accepts the Arabic-Indic `٣` as rank 3, where `ParseRank` rejects it |
| Matcher.ParseRankRefinesAsWritten | python.py:112-116 | Against the as-written model: the corrected parse accepts only what it accepts, with the same value, rejects everything it rejects or raises on, and differs from it only on texts holding a digit of another script |
| Matcher.WindowFor | python.py:130-131 | `0 <= lower <= rank <= upper`, `lower == 0` when `rank <= 5000`, otherwise exactly 5000 below, and `upper` exactly 25000 above |
| Matcher.BlankToNull | python.py:94 | A cell becomes null exactly when it is null or an all-whitespace text; any other cell is kept |
| Matcher.ToNumeric | python.py:127 | A null cell never coerces; a number coerces to itself; a text coerces as an optionally signed ASCII integer, so a blank text never does |
| Matcher.ToNumericShowInt | python.py:127 | A number written as text coerces back to that number |
| Matcher.Project | python.py:139 | A projected row has exactly the listed columns the row has, with the same cells |
| Matcher.ClearBlankRanks | python.py:94 | Keeps every row in order with the same columns and every cell outside the rank column unchanged; each rank cell becomes null when blank and is kept otherwise |
| Matcher.KeepSelected | python.py:120-125 | A row survives a selection exactly when the selection is empty or holds the row's value; the survivors keep their order and every occurrence |
| Matcher.EmptySelectionKeepsAll | python.py:120-125 | An empty selection keeps every row, in order |
| Matcher.CoerceRanks | python.py:127-128 | A row survives, with its rank cell replaced by the number `v`, exactly when its rank cell coerces to `v`; every surviving row has a numeric rank cell |
| Matcher.KeepInWindow | python.py:132 | A row survives exactly when its numeric rank lies in the window, both ends included; the survivors keep their order and every occurrence |
| Matcher.ProjectRows | python.py:139 | Keeps every row in order, each with exactly the displayed columns it has and the same cells |
| Matcher.OutputColumns | python.py:135-139 | The output columns are exactly the displayed columns the table has, in display order |
| Matcher.OutputColumnsAllPresent | python.py:135-139 | A table with all nine displayed columns shows exactly those, in display order |
| Matcher.Answerable | python.py:111-125 | (definition) The program answers a query: the category is a rank column, the rank text parses, and every non-empty selection has its column |
| Matcher.Match | python.py:111-140 | Answers exactly the answerable queries; an unknown category and an invalid rank (not a digit string of at most 4300 digits) are reported as such, in that precedence |
| Matcher.ClearKeepsSelections | python.py:94 | Clearing blanks in the rank column does not change any of the three selections' verdicts |
| Matcher.ShowColumns | python.py:135-138 | (definition) The nine displayed columns in display order, the chosen rank column eighth |
| Matcher.Matching | python.py:117-139 | (definition) The unsorted answer: clear blanks, the three selections, coercion, the window, projection, in that order; it has at most as many rows as the input, each holding only displayed columns |
| Matcher.Selected | python.py:120-125 | (definition) A row passes a selection when the selection is empty or holds the row's cell in that column |
| Matcher.Eligible | python.py:120-132 | (definition) The reference test for one row: all three selections hold and its rank cell, blanks cleared and coerced, is a number inside the window |
| Matcher.Shape | python.py:127-139 | (definition) The displayed form of an eligible row: its rank cell replaced by the coerced number, then projected onto the output columns |
| Matcher.Expected | python.py:117-139 | (definition) The reference answer: every eligible row, displayed, in table order |
| Matcher.MatchingIsExpected | python.py:117-139 | The staged computation equals the row-at-a-time reference: same rows, same order |
| Matcher.MatchIsPermutationOfExpected | python.py:117-140 | The answer has the output columns, the rank column among them, and its rows are a permutation of the reference rows |
| Matcher.MatchSound | python.py:127-132 | Every answer row displays an eligible input row, and its rank cell is that row's coerced rank |
| Matcher.MatchComplete | python.py:120-132 | Every eligible input row is displayed in the answer |
| Matcher.MatchInWindowAndSorted | python.py:130-140 | The answer is sorted by rank, and every rank in it is a number inside the window |
| Matcher.MatchRespectsSelections | python.py:120-125 | Under a non-empty selection, every answer row has a selected value in that column |
| Matcher.UncoercibleRankNeverEligible | python.py:127-128 | A row whose rank cell is null, blank or not a number is never eligible |
| Matcher.MatchRowKeys | python.py:139 | In a well-formed table, every answer row has exactly the output columns |
| Matcher.MatchKeepsWellFormed | python.py:139 | A well-formed table gives a well-formed answer |
| Seqs.FilterMap | python.py:120-132 | A masking or rewriting pass over rows: never longer than its input, every output comes from an input row, and every kept input row's output is present |
| Seqs.FilterMapTotal | python.py:94 | A column assignment that keeps every row maps the rows one for one, in order |
| Seqs.FilterMapThen | python.py:117-132 | Two successive masking passes equal one pass with the composed row test |
| Seqs.FilterMapCount | python.py:121-132 | A boolean mask keeps every occurrence of a kept row and none of a dropped one |
| Seqs.FilterMapSubsequence | python.py:139 | Selecting columns or rows without rewriting them keeps the survivors in their original order |
| Seqs.SortedCons | python.py:140 | Putting a row with a key no larger than the first key in front of a sorted sequence keeps it sorted |
| Seqs.InsertBy | python.py:140 | Inserting into a sorted sequence keeps it sorted and adds exactly the new element |
| Seqs.SortBy | python.py:140 | The result is ordered by the key and is a permutation of the input |
| Seqs.FlattenLength | python.py:63-75 | A grid of rows of `n` cells emits `rows * n` cells |
| Seqs.FlattenIndex | python.py:69-75 | Cell `j` of row `i` is emitted at position `i * n + j` |
| Report.Widths | python.py:41-59 | Every column gets a width, the eight known columns their fixed widths, every other column 25, and all widths are positive |
| Report.RankPickIsNotFixed | python.py:52-54 | The column picked as rank column never overrides a fixed width |
| Report.RankColumnWidth | python.py:52-59 | Every rank column, by either test, gets 25 |
| Report.HeaderText | python.py:64 | Header text is the whole name when it has at most 30 characters, and exactly its first 30 characters otherwise |
| Report.Display | python.py:71 | A null cell shows as empty, a text as itself, and a number as its canonical decimal rendering, which reads back as that number |
| Report.Clip | python.py:72-73 | Text of at most 50 characters is unchanged; longer text becomes exactly 50 characters: its first 47, then `...` |
| Report.CellText | python.py:71-73 | A body cell's text: null shows as empty, a display string of at most 50 characters is kept whole, and a longer one becomes its first 47 characters followed by `...`; never longer than 50 |
| Report.HeaderRow | python.py:63-64 | One header box per column, in column order, each with that column's width and its header text |
| Report.BodyRow | python.py:70-74 | One box per column for a row, in column order, each with that column's width and the cell's clipped text |
| Report.BodyRows | python.py:69-75 | One box row per table row, in table order |
| Report.Grid | python.py:61-75 | For any widths covering the columns: the header row first, then one row per table row, each with one box per column |
| Report.ClipIdempotent | python.py:72-73 | Clipping a clipped text changes nothing |
| Report.LayoutWidthsPositive | python.py:41-74 | Every box of the report has a positive width |
| Report.Layout | python.py:61-75 | The grid of the report: one header row and one row per table row, each with one box per column |
| Report.Cells | python.py:61-75 | The boxes in emission order: one per column for the header and for each table row |
| Report.HeaderCellsFirst | python.py:61-65 | The report emits one box per column per header and body row, and the first boxes are the header boxes in column order |
| Report.BodyCellsInOrder | python.py:67-75 | The box of body row `i`, column `j` is emitted after `i + 1` full rows, at column `j`, with that cell's width and clipped text |
| Report.GridHeaderFirst | python.py:61-65 | For any widths covering the columns, the header boxes come first in column order |
| Report.GridBodyInOrder | python.py:67-75 | For any widths covering the columns, body boxes are emitted row by row, column by column, never re-sorted |
| Predictor.AnswerRankColumnWidth | python.py:52-59 | In the report of any answer, the rank column is present and 25 wide |
| Predictor.AnswerRanksReadBack | python.py:71 | Every rank the report shows for an answer reads back as a number inside the query's window |

## Left out

- The Streamlit interface (python.py:81-109, 142-154): widgets, the form,
  messages, and the download button. The category, rank text and
  selections become the fields of a `Query`. The category list comes from
  `RankColumns`, and the selections are arbitrary sets of cells.
- Loading the sheet (`load_data`, python.py:8-16): reading the Excel file
  and normalising headers and `branch_code`. Input tables are taken as
  already loaded.
- The document library (python.py:24-38, 62, 68, 77-78): page setup,
  fonts, title and note cells, page breaks, cell heights, alignment, and
  `latin1` encoding. Only the `(width, text)` of each box is modelled.
- Matcher.ToNumeric: models `pd.to_numeric` only on integers written as
  ASCII digits with an optional sign. Floats, exponents, surrounding
  whitespace in a text cell, and the float dtype the column takes after
  coercion are not modelled.
- Report.Display: writes a number as an integer. `pd.to_numeric` gives a
  float column when the coerced column still held a null or a float
  before the `dropna` at line 128. pandas may then show ranks as floats,
  for example `12345.0`. That rendering is not modelled.
- Matcher.ParseRank: accepts ASCII digits only. Python's `isdigit` and
  `int` also accept the decimal digits of other scripts, such as Arabic-Indic
  digits, and the model rejects those. `OtherScriptRankAccepted` exhibits
  the difference, and `ParseRankRefinesAsWritten` proves it is the only
  difference apart from the 4300-digit limit, which both apply.
- Matcher.ParseRankAsWritten: knows only the characters `IsListedDigit`
  lists, not the full Unicode tables behind `isdigit` and `int`. Those are
  ASCII digits; the Arabic-Indic, Extended Arabic-Indic, Devanagari,
  Bengali, Thai and fullwidth decimal digits; and the superscript,
  subscript, circled, parenthesised and full-stop digits. Any other
  character with the Unicode digit property is treated as rejected.
  The 4300-digit limit is the default; a different limit set through
  `sys.set_int_max_str_digits` or `PYTHONINTMAXSTRDIGITS`, or a Python
  release without the limit, is not modelled.
- Tie order among rows of equal rank: pandas' default sort does not fix
  it, so the model promises only order by rank and a permutation.
- Matcher.CoerceRanks: states which rows survive and with which rank, in
  both directions, but not their number or order. `MatchingIsExpected`
  pins the whole staged computation, this stage included, to the
  row-at-a-time reference: same rows, same order.
- Matcher.KeepSelected: a null cell is never selected. The widgets offer
  only non-null values, so a selection holding NaN is not modelled.
- Duplicate column names: a row is a map, so a table has each column at
  most once.

## Findings

| source | as written | input that shows it | evidently intended | confidence | as-written member | corrected member |
|---|---|---|---|---|---|---|
| python.py:112-116 | The guard `selected_rank.strip().isdigit()` accepts superscript, subscript and circled digits such as `² ⁴ ₂ ①`, and `int(...)` at line 116 then raises `ValueError` | the rank text `²` | A text that passes the guard converts to an integer: accept only decimal digits, and report anything else as an invalid rank | not executed | Matcher.SuperscriptRankRaises | Matcher.ParseRankRefinesAsWritten |
| python.py:112-116 | The guard admits a digit string of any length, and `int(...)` at line 116 raises `ValueError` on one of more than 4300 digits, the default limit since Python 3.11 | the rank text `"1" * 4301` | A rank the guard admits converts: report an over-long rank as an invalid rank | not executed | Matcher.LongRankRaises | Matcher.ParseRankRefinesAsWritten |

=== FILE: columns.dfy ===
/**
 * Recognising the caste/gender rank columns (`OC_BOYS`, `SC_GIRLS`, ...).
 * The program does this twice with two different tests: the list of
 * selectable categories uses substring containment, and the report layout
 * uses a suffix test.
 */
module Columns {
  import opened Wrappers
  import opened Text

  const BoysTag := "_BOYS"
  const GirlsTag := "_GIRLS"

  // The fixed (non-rank) columns of the cutoff sheet.
  const InstCodeCol := "INSTCODE"
  const NameCol := "NAME OF THE INSTITUTION"
  const InstRegionCol := "INST_REG"
  const DistrictCol := "DIST"
  const RegionCol := "A_REG"
  const BranchCol := "branch_code"
  const PlaceCol := "PLACE"
  const FeeCol := "COLLFEE"

  /** The fixed columns, which no rank column can coincide with. */
  predicate IsFixedColumn(col: string) {
    col in {InstCodeCol, NameCol, InstRegionCol, DistrictCol, RegionCol, BranchCol, PlaceCol, FeeCol}
  }

  /** The test of `get_rank_columns`: the name contains `_BOYS` or `_GIRLS`. */
  predicate MentionsCategory(col: string) {
    Contains(col, BoysTag) || Contains(col, GirlsTag)
  }

  /** The test of the report layout: the name ends with `_BOYS` or `_GIRLS`. */
  predicate EndsWithCategory(col: string) {
    EndsWith(col, BoysTag) || EndsWith(col, GirlsTag)
  }

  /** The selectable categories: the rank columns, in column order. */
  function RankColumns(cols: seq<string>): (r: seq<string>)
    ensures forall c :: c in r <==> c in cols && MentionsCategory(c)
    ensures |r| <= |cols|
  {
    if |cols| == 0 then []
    else (if MentionsCategory(cols[0]) then [cols[0]] else []) + RankColumns(cols[1..])
  }

  /** The index of the first column the report layout treats as the rank
      column, if any. */
  function FirstRankIndex(cols: seq<string>): (r: Option<nat>)
    ensures r.Some? ==> r.value < |cols| && EndsWithCategory(cols[r.value])
    ensures r.Some? ==> forall j :: 0 <= j < r.value ==> !EndsWithCategory(cols[j])
    ensures r.None? ==> forall j :: 0 <= j < |cols| ==> !EndsWithCategory(cols[j])
  {
    if |cols| == 0 then None
    else if EndsWithCategory(cols[0]) then Some(0)
    else match FirstRankIndex(cols[1..])
      case None => None
      case Some(k) => Some(k + 1)
  }

  /** Every column the suffix test accepts, the containment test accepts. */
  lemma SuffixTestIsStricter(col: string)
    ensures EndsWithCategory(col) ==> MentionsCategory(col)
  {
    if EndsWith(col, BoysTag) {
      EndsWithContains(col, BoysTag);
    } else if EndsWith(col, GirlsTag) {
      EndsWithContains(col, GirlsTag);
    }
  }

  /** The two tests differ: a tag in the middle of a name satisfies only the
      containment test. */
  lemma TestsDiffer()
    ensures MentionsCategory("OC_BOYS_2023") && !EndsWithCategory("OC_BOYS_2023")
  {
    assert OccursAt("OC_BOYS_2023", BoysTag, 2);
    ContainsIffOccurs("OC_BOYS_2023", BoysTag);
  }

  /** A text can contain a pattern only where the pattern's first character
      occurs, or at its very end. */
  lemma {:induction false} NotContainsSplit(p: string, q: string, sub: string)
    requires |sub| > 0 && sub[0] !in p
    requires |q| <= |sub| && q != sub
    ensures !Contains(p + q, sub)
  {
    ContainsIffOccurs(p + q, sub);
  }

  /** A name with no `_` followed by a tag is not a rank column. */
  lemma NotRankColumn(p: string, q: string)
    requires '_' !in p
    requires |q| <= 5 && q != BoysTag && q != GirlsTag
    ensures !MentionsCategory(p + q)
  {
    NotContainsSplit(p, q, BoysTag);
    NotContainsSplit(p, q, GirlsTag);
  }

  /** None of the fixed column names is a rank column name. */
  lemma FixedColumnsAreNotRankColumns(col: string)
    requires IsFixedColumn(col)
    ensures !MentionsCategory(col)
  {
    if col == InstRegionCol {
      NotRankColumn("INST", "_REG");
      assert "INST" + "_REG" == col;
    } else if col == RegionCol {
      NotRankColumn("A", "_REG");
      assert "A" + "_REG" == col;
    } else if col == BranchCol {
      NotRankColumn("branch", "_code");
      assert "branch" + "_code" == col;
    } else {
      NotRankColumn(col, "");
      assert col + "" == col;
    }
  }

  /** A rank column is never one of the fixed columns. */
  lemma RankColumnIsNotFixed(col: string)
    requires MentionsCategory(col)
    ensures !IsFixedColumn(col)
  {
    if IsFixedColumn(col) {
      FixedColumnsAreNotRankColumns(col);
    }
  }
}

=== FILE: matcher.dfy ===
/**
 * The eligibility matcher: given the cutoff table, a caste/gender category,
 * the rank the candidate typed and three optional selections (branches,
 * districts, regions), the institutions whose cutoff rank in that category
 * lies in a window around the candidate's rank, projected to the displayed
 * columns and ordered by cutoff rank.
 */
module Matcher {
  import opened Wrappers
  import opened Text
  import opened Records
  import opened Columns
  import opened Seqs

  /** Why a query is rejected before any row is looked at. */
  datatype MatchError =
    | UnknownCategory(category: string)   // not one of the selectable rank columns
    | InvalidRank(input: string)          // the typed rank is not a digit string
    | MissingColumn(column: string)       // a selection on a column the table lacks

  /** One submission of the filter form. An empty selection means "any". */
  datatype Query = Query(
    category: string,
    rankText: string,
    branches: set<Cell>,
    districts: set<Cell>,
    regions: set<Cell>)

  /** How far below and above the candidate's rank the window reaches. */
  const BelowRank: nat := 5000
  const AboveRank: nat := 25000

  /** A closed interval of cutoff ranks. */
  datatype Window = Window(lower: int, upper: int) {
    predicate Admits(v: int) {
      lower <= v <= upper
    }
  }

  // ---------------------------------------------------------------------
  // The typed rank and the window around it
  // ---------------------------------------------------------------------

  /** The most digits `int` converts from a string: the default of
      `sys.get_int_max_str_digits()`; longer decimal strings raise. */
  const IntMaxStrDigits: nat := 4300

  /** A rank text the program can convert: ASCII digits, not too many. */
  predicate IsRankText(t: string) {
    IsDigits(t) && |t| <= IntMaxStrDigits
  }

  /** The typed rank, accepted only when its stripped form is a digit string
      short enough for `int` to convert. */
  function ParseRank(text: string): (r: Option<nat>)
    ensures r.Some? <==> IsDigits(Strip(text)) && |Strip(text)| <= IntMaxStrDigits
    ensures r.Some? ==> r.value == DigitsValue(Strip(text))
    ensures IsBlank(text) ==> r.None?
  {
    var t := Strip(text);
    if IsRankText(t) then Some(DigitsValue(t)) else None
  }

  /** A digit string typed with surrounding whitespace is accepted with its
      decimal value, leading zeros included (`007` is rank 7). */
  lemma ParseRankPadded(a: string, d: string, b: string)
    requires IsBlank(a) && IsBlank(b) && IsDigits(d) && |d| <= IntMaxStrDigits
    ensures ParseRank(a + d + b) == Some(DigitsValue(d))
  {
    assert IsDigit(d[0]) && IsDigit(d[|d| - 1]);
    StripPadded(a, d, b);
  }

  /** The decimal rendering of a number, typed with surrounding whitespace,
      is read back as that number. */
  lemma ParseRankPaddedShowNat(a: string, n: nat, b: string)
    requires IsBlank(a) && IsBlank(b) && |ShowNat(n)| <= IntMaxStrDigits
    ensures ParseRank(a + ShowNat(n) + b) == Some(n)
  {
    ParseRankPadded(a, ShowNat(n), b);
    ShowNatRoundTrip(n);
  }

  /** A signed number is not a valid rank, whatever its value. */
  lemma ParseRankRejectsSign(n: nat)
    ensures ParseRank("-" + ShowNat(n)) == None
    ensures ParseRank("+" + ShowNat(n)) == None
  {
    var m := ShowNat(n);
    assert !IsSpace(m[|m| - 1]) by { assert IsDigit(m[|m| - 1]); }
    var minus := "-" + m;
    var plus := "+" + m;
    assert minus[|minus| - 1] == m[|m| - 1] && plus[|plus| - 1] == m[|m| - 1];
    StripUnpadded(minus);
    StripUnpadded(plus);
    assert !IsDigit(minus[0]) && !IsDigit(plus[0]);
  }

  // ---------------------------------------------------------------------
  // The rank check as the program writes it
  // ---------------------------------------------------------------------

  /** The value `int` gives a decimal digit of another script: Arabic-Indic,
      Extended Arabic-Indic, Devanagari, Bengali, Thai and fullwidth digits.
      These are the runs this model lists, not the whole Unicode table. */
  function OtherDecimalValue(c: char): (r: Option<nat>)
    ensures r.Some? ==> r.value < 10 && !IsDigit(c)
  {
    var n := c as int;
    if 0x0660 <= n <= 0x0669 then Some(n - 0x0660)
    else if 0x06F0 <= n <= 0x06F9 then Some(n - 0x06F0)
    else if 0x0966 <= n <= 0x096F then Some(n - 0x0966)
    else if 0x09E6 <= n <= 0x09EF then Some(n - 0x09E6)
    else if 0x0E50 <= n <= 0x0E59 then Some(n - 0x0E50)
    else if 0xFF10 <= n <= 0xFF19 then Some(n - 0xFF10)
    else None
  }

  /** The value `int` gives a character it reads as a digit. */
  function DecimalValue(c: char): (r: Option<nat>)
    ensures IsDigit(c) ==> r == Some(DigitValue(c))
    ensures r.Some? ==> r.value < 10
  {
    if IsDigit(c) then Some(DigitValue(c)) else OtherDecimalValue(c)
  }

  /** Characters `isdigit` holds of but `int` does not read: superscript,
      subscript, circled, parenthesised and full-stop digits (the runs this
      model lists). */
  predicate IsDigitOnly(c: char) {
    var n := c as int;
    || n == 0xB2 || n == 0xB3 || n == 0xB9 || n == 0x2070
    || (0x2074 <= n <= 0x2079) || (0x2080 <= n <= 0x2089)
    || (0x2460 <= n <= 0x2468) || (0x2474 <= n <= 0x247C)
    || (0x2488 <= n <= 0x2490) || n == 0x24EA
    || (0x2776 <= n <= 0x277E) || (0x2780 <= n <= 0x2788) || (0x278A <= n <= 0x2792)
  }

  /** The characters of `str.isdigit` this model lists. */
  predicate IsListedDigit(c: char) {
    DecimalValue(c).Some? || IsDigitOnly(c)
  }

  /** `int(s)` on a string of characters it reads as digits. */
  function DecimalsValue(s: string): nat
    requires forall i :: 0 <= i < |s| ==> DecimalValue(s[i]).Some?
    decreases |s|
  {
    if |s| == 0 then 0
    else DecimalsValue(s[..|s| - 1]) * 10 + DecimalValue(s[|s| - 1]).value
  }

  /** On ASCII digits, `int` computes the ordinary decimal value. */
  lemma {:induction false} DecimalsValueAscii(s: string)
    ensures (forall i :: 0 <= i < |s| ==> IsDigit(s[i])) ==> DecimalsValue(s) == DigitsValue(s)
    decreases |s|
  {
    if |s| > 0 && forall i :: 0 <= i < |s| ==> IsDigit(s[i]) {
      DecimalsValueAscii(s[..|s| - 1]);
    }
  }

  /** The outcome of the rank check as the program writes it: the guard
      tests `isdigit`, then `int` converts, and `int` can still raise. */
  datatype RankCheck = Accepted(rank: nat) | Rejected | Raises

  function ParseRankAsWritten(text: string): (r: RankCheck)
    ensures r.Rejected? <==> !(|Strip(text)| > 0 && forall i :: 0 <= i < |Strip(text)| ==> IsListedDigit(Strip(text)[i]))
    ensures r.Accepted? <==>
      && 0 < |Strip(text)| <= IntMaxStrDigits
      && forall i :: 0 <= i < |Strip(text)| ==> DecimalValue(Strip(text)[i]).Some?
    ensures r.Raises? ==>
      || |Strip(text)| > IntMaxStrDigits
      || exists i :: 0 <= i < |Strip(text)| && IsDigitOnly(Strip(text)[i])
    ensures IsRankText(Strip(text)) ==> r == Accepted(DigitsValue(Strip(text)))
  {
    var t := Strip(text);
    if !(|t| > 0 && forall i :: 0 <= i < |t| ==> IsListedDigit(t[i])) then Rejected
    else if |t| <= IntMaxStrDigits && forall i :: 0 <= i < |t| ==> DecimalValue(t[i]).Some? then
      DecimalsValueAscii(t);
      Accepted(DecimalsValue(t))
    else Raises
  }

  /** The guard lets superscript and subscript digits through, and the
      conversion then raises. */
  lemma SuperscriptRankRaises()
    ensures ParseRankAsWritten([0xB2 as char]) == Raises
    ensures ParseRankAsWritten([0x2074 as char]) == Raises
    ensures ParseRankAsWritten([0x2082 as char]) == Raises
  {
    var two := [0xB2 as char];
    var four := [0x2074 as char];
    var sub := [0x2082 as char];
    StripUnpadded(two);
    StripUnpadded(four);
    StripUnpadded(sub);
    assert DecimalValue(two[0]).None? && DecimalValue(four[0]).None? && DecimalValue(sub[0]).None?;
  }

  /** A digit of another script passes the guard and converts, so the
      program accepts the rank `٣` as 3; `ParseRank` rejects it. */
  lemma OtherScriptRankAccepted()
    ensures ParseRankAsWritten([0x0663 as char]) == Accepted(3)
    ensures ParseRank([0x0663 as char]) == None
  {
    var t := [0x0663 as char];
    StripUnpadded(t);
    assert DecimalsValue(t) == DecimalsValue(t[..0]) * 10 + 3;
  }

  /** The guard lets a digit string of any length through, and `int` then
      raises on one longer than its limit. */
  lemma LongRankRaises()
    ensures var long := seq(IntMaxStrDigits + 1, _ => '1');
      ParseRankAsWritten(long) == Raises && ParseRank(long) == None
  {
    var long := seq(IntMaxStrDigits + 1, _ => '1');
    assert IsDigit(long[0]) && IsDigit(long[|long| - 1]);
    StripUnpadded(long);
    assert forall i :: 0 <= i < |long| ==> IsListedDigit(long[i]);
  }

  /** `ParseRank` accepts only ranks the program accepts, with the same
      value; it rejects every input on which the program raises; and it
      differs from the program only on digits of other scripts. */
  lemma ParseRankRefinesAsWritten(text: string)
    ensures ParseRank(text).Some? ==> ParseRankAsWritten(text) == Accepted(ParseRank(text).value)
    ensures ParseRankAsWritten(text).Raises? ==> ParseRank(text).None?
    ensures ParseRankAsWritten(text).Rejected? ==> ParseRank(text).None?
    ensures ParseRankAsWritten(text).Accepted? && ParseRank(text).None? ==>
      exists i :: 0 <= i < |Strip(text)| && OtherDecimalValue(Strip(text)[i]).Some?
  {
    var t := Strip(text);
    if ParseRankAsWritten(text).Accepted? && ParseRank(text).None? {
      var i :| 0 <= i < |t| && !IsDigit(t[i]);
      assert DecimalValue(t[i]).Some?;
    }
  }

  function Max(a: int, b: int): int {
    if a < b then b else a
  }

  /** The window of cutoff ranks a candidate of rank `rank` is shown. */
  function WindowFor(rank: nat): (w: Window)
    ensures 0 <= w.lower <= rank <= w.upper
    ensures rank <= BelowRank ==> w.lower == 0
    ensures rank >= BelowRank ==> rank - w.lower == BelowRank
    ensures w.upper - rank == AboveRank
  {
    Window(Max(0, rank - BelowRank), rank + AboveRank)
  }

  // ---------------------------------------------------------------------
  // Reading the rank cell
  // ---------------------------------------------------------------------

  /** A text cell that is empty or all whitespace becomes null. */
  function BlankToNull(c: Option<Cell>): (r: Option<Cell>)
    ensures r.None? <==> c.None? || (c.value.Text? && IsBlank(c.value.s))
    ensures r.Some? ==> r == c
  {
    match c
    case Some(Text(s)) => if IsBlank(s) then None else c
    case _ => c
  }

  /** Numeric coercion of a cell; what cannot be read as a number is null. */
  function ToNumeric(c: Option<Cell>): (r: Option<int>)
    ensures c.None? ==> r.None?
    ensures c.Some? && c.value.Num? ==> r == Some(c.value.n)
    ensures c.Some? && c.value.Text? ==> r == ParseInt(c.value.s)
    ensures r.Some? && c.value.Text? ==> !IsBlank(c.value.s)
  {
    match c
    case None => None
    case Some(Num(n)) => Some(n)
    case Some(Text(s)) => ParseInt(s)
  }

  /** A number shown as text is coerced back to that number. */
  lemma ToNumericShowInt(n: int)
    ensures ToNumeric(Some(Text(ShowInt(n)))) == Some(n)
  {
    ParseShowInt(n);
  }

  /** The value of a row's rank cell once blanks are cleared and the column
      is coerced: `None` for a null, blank or non-numeric cell. */
  function RankValue(row: Record, cat: string): Option<int> {
    ToNumeric(BlankToNull(Get(row, cat)))
  }

  /** A numeric cell, as the sort and the window see it after coercion. */
  function NumberAt(row: Record, col: string): Option<int> {
    match Get(row, col)
    case Some(Num(n)) => Some(n)
    case _ => None
  }

  /** The sort key of a row: its numeric rank cell. */
  function RankKey(cat: string): Record -> int {
    row => match NumberAt(row, cat) case Some(n) => n case None => 0
  }

  // ---------------------------------------------------------------------
  // One row at a time
  // ---------------------------------------------------------------------

  /** The rank column with its blank cells replaced by null. */
  function ClearRow(row: Record, cat: string): Record {
    if cat in row then row[cat := BlankToNull(row[cat])] else row
  }

  /** A selection is satisfied when it is empty or holds the row's value. */
  predicate Selected(row: Record, col: string, sel: set<Cell>) {
    sel == {} || (Get(row, col).Some? && Get(row, col).value in sel)
  }

  /** The row with its rank cell coerced to a number, or nothing when the
      cell does not coerce. */
  function Coerced(row: Record, cat: string): Option<Record> {
    match ToNumeric(Get(row, cat))
    case Some(v) => Some(row[cat := Some(Num(v))])
    case None => None
  }

  predicate InWindow(row: Record, cat: string, w: Window) {
    NumberAt(row, cat).Some? && w.Admits(NumberAt(row, cat).value)
  }

  /** The row restricted to the given columns. */
  function Project(row: Record, cols: seq<string>): (r: Record)
    ensures r.Keys == (set c | c in cols) * row.Keys
    ensures forall c :: c in r ==> r[c] == row[c]
  {
    map c | c in cols && c in row :: row[c]
  }

  function ClearStep(cat: string): Record -> Option<Record> {
    row => Some(ClearRow(row, cat))
  }

  function SelectStep(col: string, sel: set<Cell>): Record -> Option<Record> {
    row => if Selected(row, col, sel) then Some(row) else None
  }

  function CoerceStep(cat: string): Record -> Option<Record> {
    row => Coerced(row, cat)
  }

  function WindowStep(cat: string, w: Window): Record -> Option<Record> {
    row => if InWindow(row, cat, w) then Some(row) else None
  }

  function ProjectStep(cols: seq<string>): Record -> Option<Record> {
    row => Some(Project(row, cols))
  }

  // ---------------------------------------------------------------------
  // The data-frame steps
  // ---------------------------------------------------------------------

  /** Blank rank cells become null (the cleaning done before the rank check). */
  function ClearBlankRanks(rows: seq<Record>, cat: string): (r: seq<Record>)
    ensures |r| == |rows|
    ensures forall i :: 0 <= i < |rows| ==> r[i].Keys == rows[i].Keys
    ensures forall i, c :: 0 <= i < |rows| && c in rows[i] && c != cat ==> r[i][c] == rows[i][c]
    ensures forall i :: 0 <= i < |rows| ==> Get(r[i], cat) == BlankToNull(Get(rows[i], cat))
    ensures forall x :: x in r ==> Get(x, cat) == None || !(Get(x, cat).value.Text? && IsBlank(Get(x, cat).value.s))
  {
    FilterMapTotal(rows, ClearStep(cat));
    FilterMap(rows, ClearStep(cat))
  }

  /** Rows whose value in `col` is selected (no restriction when `sel` is empty). */
  function KeepSelected(rows: seq<Record>, col: string, sel: set<Cell>): (r: seq<Record>)
    ensures forall x :: x in r <==> x in rows && Selected(x, col, sel)
    ensures Subsequence(r, rows)
    ensures forall x :: multiset(r)[x] == if Selected(x, col, sel) then multiset(rows)[x] else 0
  {
    FilterMapSubsequence(rows, SelectStep(col, sel));
    FilterMapCount(rows, SelectStep(col, sel));
    FilterMap(rows, SelectStep(col, sel))
  }

  /** An empty selection keeps every row, in order. */
  lemma {:induction false} EmptySelectionKeepsAll(rows: seq<Record>, col: string)
    ensures KeepSelected(rows, col, {}) == rows
    decreases |rows|
  {
    if |rows| > 0 {
      EmptySelectionKeepsAll(rows[1..], col);
      assert rows == [rows[0]] + rows[1..];
    }
  }

  /** The rank column coerced to numbers, and the rows it is null in dropped. */
  function CoerceRanks(rows: seq<Record>, cat: string): (r: seq<Record>)
    ensures |r| <= |rows|
    ensures forall x :: x in r ==> NumberAt(x, cat).Some?
    ensures forall row :: row in rows && ToNumeric(Get(row, cat)).Some? ==>
      row[cat := Some(Num(ToNumeric(Get(row, cat)).value))] in r
    ensures forall x :: x in r ==>
      exists row :: row in rows && ToNumeric(Get(row, cat)).Some? && x == row[cat := Some(Num(ToNumeric(Get(row, cat)).value))]
  {
    FilterMap(rows, CoerceStep(cat))
  }

  /** Rows whose numeric rank lies in the window, both ends included. */
  function KeepInWindow(rows: seq<Record>, cat: string, w: Window): (r: seq<Record>)
    ensures forall x :: x in r <==> x in rows && InWindow(x, cat, w)
    ensures Subsequence(r, rows)
    ensures forall x :: multiset(r)[x] == if InWindow(x, cat, w) then multiset(rows)[x] else 0
  {
    FilterMapSubsequence(rows, WindowStep(cat, w));
    FilterMapCount(rows, WindowStep(cat, w));
    FilterMap(rows, WindowStep(cat, w))
  }

  /** Every row restricted to the displayed columns. */
  function ProjectRows(rows: seq<Record>, cols: seq<string>): (r: seq<Record>)
    ensures |r| == |rows|
    ensures forall i :: 0 <= i < |rows| ==> r[i].Keys == (set c | c in cols) * rows[i].Keys
    ensures forall i, c :: 0 <= i < |rows| && c in r[i] ==> r[i][c] == rows[i][c]
  {
    FilterMapTotal(rows, ProjectStep(cols));
    FilterMap(rows, ProjectStep(cols))
  }

  /** The displayed columns, the rank column among them. */
  function ShowColumns(cat: string): seq<string> {
    [InstCodeCol, NameCol, InstRegionCol, DistrictCol, RegionCol, BranchCol, PlaceCol, cat, FeeCol]
  }

  /** The displayed columns the table actually has, in display order. */
  function OutputColumns(cols: seq<string>, cat: string): (r: seq<string>)
    ensures forall c :: c in r <==> c in ShowColumns(cat) && c in cols
    ensures Subsequence(r, ShowColumns(cat))
  {
    var keep := (c: string) => if c in cols then Some(c) else None;
    FilterMapSubsequence(ShowColumns(cat), keep);
    FilterMap(ShowColumns(cat), keep)
  }

  /** A table with every displayed column shows them all, in display order. */
  lemma OutputColumnsAllPresent(cols: seq<string>, cat: string)
    requires forall c :: c in ShowColumns(cat) ==> c in cols
    ensures OutputColumns(cols, cat) == ShowColumns(cat)
  {
    FilterMapKeepsAll(ShowColumns(cat), (c: string) => if c in cols then Some(c) else None);
  }

  /** The unsorted rows of the answer, step by step as the program computes them. */
  function Matching(rows: seq<Record>, q: Query, w: Window, cols: seq<string>): (r: seq<Record>)
    ensures |r| <= |rows|
    ensures forall x :: x in r ==> x.Keys <= set c | c in cols
  {
    var cleared := ClearBlankRanks(rows, q.category);
    var byBranch := KeepSelected(cleared, BranchCol, q.branches);
    var byDistrict := KeepSelected(byBranch, DistrictCol, q.districts);
    var byRegion := KeepSelected(byDistrict, RegionCol, q.regions);
    var numeric := CoerceRanks(byRegion, q.category);
    var inWindow := KeepInWindow(numeric, q.category, w);
    ProjectRows(inWindow, cols)
  }

  /** The query is one the program answers rather than rejects. */
  predicate Answerable(t: Table, q: Query) {
    && q.category in RankColumns(t.columns)
    && ParseRank(q.rankText).Some?
    && (q.branches == {} || BranchCol in t.columns)
    && (q.districts == {} || DistrictCol in t.columns)
    && (q.regions == {} || RegionCol in t.columns)
  }

  /** The matcher: an error, or the matching rows projected and sorted. */
  function Match(t: Table, q: Query): (r: Result<Table, MatchError>)
    ensures r.Ok? <==> Answerable(t, q)
    ensures r == Err(UnknownCategory(q.category)) <==> q.category !in RankColumns(t.columns)
    ensures r == Err(InvalidRank(q.rankText)) <==>
              q.category in RankColumns(t.columns) && !IsRankText(Strip(q.rankText))
  {
    if q.category !in RankColumns(t.columns) then Err(UnknownCategory(q.category))
    else match ParseRank(q.rankText)
      case None => Err(InvalidRank(q.rankText))
      case Some(rank) =>
        if q.branches != {} && BranchCol !in t.columns then Err(MissingColumn(BranchCol))
        else if q.districts != {} && DistrictCol !in t.columns then Err(MissingColumn(DistrictCol))
        else if q.regions != {} && RegionCol !in t.columns then Err(MissingColumn(RegionCol))
        else
          var cols := OutputColumns(t.columns, q.category);
          var rows := Matching(t.rows, q, WindowFor(rank), cols);
          Ok(Table(cols, SortBy(rows, RankKey(q.category))))
  }

  // ---------------------------------------------------------------------
  // The reference: one decision per input row
  // ---------------------------------------------------------------------

  /** A row belongs in the answer: it passes the three selections and its
      rank cell is a number inside the window. */
  predicate Eligible(row: Record, q: Query, w: Window) {
    && Selected(row, BranchCol, q.branches)
    && Selected(row, DistrictCol, q.districts)
    && Selected(row, RegionCol, q.regions)
    && RankValue(row, q.category).Some?
    && w.Admits(RankValue(row, q.category).value)
  }

  /** How an eligible row is displayed: its rank as a number, its other
      cells unchanged, restricted to the displayed columns. */
  function Shape(row: Record, cat: string, cols: seq<string>): Record
    requires RankValue(row, cat).Some?
  {
    Project(row[cat := Some(Num(RankValue(row, cat).value))], cols)
  }

  function ExpectStep(q: Query, w: Window, cols: seq<string>): Record -> Option<Record> {
    row => if Eligible(row, q, w) then Some(Shape(row, q.category, cols)) else None
  }

  /** The eligible rows, displayed, in table order. */
  function Expected(rows: seq<Record>, q: Query, w: Window, cols: seq<string>): seq<Record> {
    FilterMap(rows, ExpectStep(q, w, cols))
  }

  /** The program's steps, run one after another on a single row. */
  function Steps(q: Query, w: Window, cols: seq<string>): Record -> Option<Record> {
    Then(ClearStep(q.category),
    Then(SelectStep(BranchCol, q.branches),
    Then(SelectStep(DistrictCol, q.districts),
    Then(SelectStep(RegionCol, q.regions),
      RankSteps(q.category, w, cols)))))
  }

  /** The steps after the selections: coercion, window, projection. */
  function RankSteps(cat: string, w: Window, cols: seq<string>): Record -> Option<Record> {
    Then(CoerceStep(cat), Then(WindowStep(cat, w), ProjectStep(cols)))
  }

  lemma RankStepsOn(c: Record, cat: string, w: Window, cols: seq<string>)
    ensures RankSteps(cat, w, cols)(c) ==
      match ToNumeric(Get(c, cat))
      case None => None
      case Some(v) => if w.Admits(v) then Some(Project(c[cat := Some(Num(v))], cols)) else None
  {
    match ToNumeric(Get(c, cat))
    case None =>
    case Some(v) =>
      assert NumberAt(c[cat := Some(Num(v))], cat) == Some(v);
  }

  lemma SelectionsOn(c: Record, q: Query, tail: Record -> Option<Record>)
    ensures Then(SelectStep(BranchCol, q.branches),
            Then(SelectStep(DistrictCol, q.districts),
            Then(SelectStep(RegionCol, q.regions), tail)))(c) ==
      if Selected(c, BranchCol, q.branches) && Selected(c, DistrictCol, q.districts)
         && Selected(c, RegionCol, q.regions)
      then tail(c) else None
  {
  }

  /** Clearing blanks in the rank column leaves the selection columns alone. */
  lemma ClearKeepsSelections(row: Record, q: Query)
    requires MentionsCategory(q.category)
    ensures var c := ClearRow(row, q.category);
      && Selected(c, BranchCol, q.branches) == Selected(row, BranchCol, q.branches)
      && Selected(c, DistrictCol, q.districts) == Selected(row, DistrictCol, q.districts)
      && Selected(c, RegionCol, q.regions) == Selected(row, RegionCol, q.regions)
  {
    RankColumnIsNotFixed(q.category);
  }

  /** After clearing, coercion, window and projection give the displayed
      row exactly when the rank value is in the window. */
  lemma RankStepsAfterClear(row: Record, cat: string, w: Window, cols: seq<string>)
    ensures RankSteps(cat, w, cols)(ClearRow(row, cat)) ==
      if RankValue(row, cat).Some? && w.Admits(RankValue(row, cat).value)
      then Some(Shape(row, cat, cols)) else None
  {
    var c := ClearRow(row, cat);
    assert Get(c, cat) == BlankToNull(Get(row, cat));
    RankStepsOn(c, cat, w, cols);
    match ToNumeric(Get(c, cat))
    case None =>
    case Some(v) =>
      ClearThenSet(row, cat, Some(Num(v)));
  }

  /** On a single row, the program's steps decide as `Eligible` does and
      produce `Shape`, provided the category is a rank column (so it is not
      one of the columns the selections read). */
  lemma StepsAgree(row: Record, q: Query, w: Window, cols: seq<string>)
    requires MentionsCategory(q.category)
    ensures Steps(q, w, cols)(row) == ExpectStep(q, w, cols)(row)
  {
    var c := ClearRow(row, q.category);
    ClearKeepsSelections(row, q);
    SelectionsOn(c, q, RankSteps(q.category, w, cols));
    RankStepsAfterClear(row, q.category, w, cols);
  }

  /** The step-by-step computation is exactly the reference: same rows, same order. */
  lemma MatchingIsExpected(rows: seq<Record>, q: Query, w: Window, cols: seq<string>)
    requires MentionsCategory(q.category)
    ensures Matching(rows, q, w, cols) == Expected(rows, q, w, cols)
  {
    var cat := q.category;
    var cleared := FilterMap(rows, ClearStep(cat));
    var byBranch := FilterMap(cleared, SelectStep(BranchCol, q.branches));
    var byDistrict := FilterMap(byBranch, SelectStep(DistrictCol, q.districts));
    var byRegion := FilterMap(byDistrict, SelectStep(RegionCol, q.regions));
    var numeric := FilterMap(byRegion, CoerceStep(cat));
    var t5 := Then(WindowStep(cat, w), ProjectStep(cols));
    var t4 := RankSteps(cat, w, cols);
    var t3 := Then(SelectStep(RegionCol, q.regions), t4);
    var t2 := Then(SelectStep(DistrictCol, q.districts), t3);
    var t1 := Then(SelectStep(BranchCol, q.branches), t2);
    FilterMapThen(numeric, WindowStep(cat, w), ProjectStep(cols));
    FilterMapThen(byRegion, CoerceStep(cat), t5);
    FilterMapThen(byDistrict, SelectStep(RegionCol, q.regions), t4);
    FilterMapThen(byBranch, SelectStep(DistrictCol, q.districts), t3);
    FilterMapThen(cleared, SelectStep(BranchCol, q.branches), t2);
    FilterMapThen(rows, ClearStep(cat), t1);
    forall row | row in rows
      ensures Steps(q, w, cols)(row) == ExpectStep(q, w, cols)(row)
    {
      StepsAgree(row, q, w, cols);
    }
    FilterMapAgree(rows, Steps(q, w, cols), ExpectStep(q, w, cols));
  }

  lemma ClearThenSet(row: Record, cat: string, x: Option<Cell>)
    ensures ClearRow(row, cat)[cat := x] == row[cat := x]
  {
  }


  // ---------------------------------------------------------------------
  // What an answer promises
  // ---------------------------------------------------------------------

  /** The window of a query whose rank text is valid. */
  function QueryWindow(q: Query): Window
    requires ParseRank(q.rankText).Some?
  {
    WindowFor(ParseRank(q.rankText).value)
  }

  /** The answer's columns are the displayed columns the table has, the rank
      column always among them, and its rows are a reordering of the
      reference rows. */
  lemma MatchIsPermutationOfExpected(t: Table, q: Query)
    requires Answerable(t, q)
    ensures var cols := OutputColumns(t.columns, q.category);
      && Match(t, q).value.columns == cols
      && q.category in cols
      && multiset(Match(t, q).value.rows) == multiset(Expected(t.rows, q, QueryWindow(q), cols))
  {
    var cols := OutputColumns(t.columns, q.category);
    assert q.category in ShowColumns(q.category);
    MatchingIsExpected(t.rows, q, QueryWindow(q), cols);
  }

  /** Displaying an eligible row keeps its rank as a number, and keeps every
      displayed column other than the rank column unchanged. */
  lemma ShapeCells(row: Record, cat: string, cols: seq<string>, col: string)
    requires RankValue(row, cat).Some? && col in cols
    ensures col == cat ==> NumberAt(Shape(row, cat, cols), cat) == RankValue(row, cat)
    ensures col != cat ==> Get(Shape(row, cat, cols), col) == Get(row, col)
  {
  }

  /** Every reference row is the display of an eligible row. */
  lemma ExpectedSound(rows: seq<Record>, q: Query, w: Window, cols: seq<string>, x: Record)
    requires x in Expected(rows, q, w, cols)
    ensures exists s :: s in rows && Eligible(s, q, w) && x == Shape(s, q.category, cols)
  {
    var f := ExpectStep(q, w, cols);
    var s :| s in rows && f(s) == Some(x);
    assert Eligible(s, q, w);
  }

  /** Soundness: every answer row is the display of an eligible input row,
      whose rank cell was a number equal to the answer's rank cell. */
  lemma MatchSound(t: Table, q: Query, x: Record)
    requires Answerable(t, q) && x in Match(t, q).value.rows
    ensures var cols := OutputColumns(t.columns, q.category);
      exists s :: s in t.rows && Eligible(s, q, QueryWindow(q))
        && x == Shape(s, q.category, cols)
        && NumberAt(x, q.category) == RankValue(s, q.category)
  {
    var cols := OutputColumns(t.columns, q.category);
    var w := QueryWindow(q);
    MatchIsPermutationOfExpected(t, q);
    assert x in multiset(Match(t, q).value.rows);
    assert x in Expected(t.rows, q, w, cols);
    ExpectedSound(t.rows, q, w, cols, x);
    var s :| s in t.rows && Eligible(s, q, w) && x == Shape(s, q.category, cols);
    ShapeCells(s, q.category, cols, q.category);
  }

  /** Completeness: every eligible input row is displayed in the answer. */
  lemma MatchComplete(t: Table, q: Query, s: Record)
    requires Answerable(t, q) && s in t.rows && Eligible(s, q, QueryWindow(q))
    ensures Shape(s, q.category, OutputColumns(t.columns, q.category)) in Match(t, q).value.rows
  {
    var cols := OutputColumns(t.columns, q.category);
    MatchIsPermutationOfExpected(t, q);
    assert ExpectStep(q, QueryWindow(q), cols)(s) == Some(Shape(s, q.category, cols));
    assert Shape(s, q.category, cols) in multiset(Match(t, q).value.rows);
  }

  /** The answer is ordered by rank, and every rank in it is a number inside
      the window, both ends included. */
  lemma MatchInWindowAndSorted(t: Table, q: Query)
    requires Answerable(t, q)
    ensures var res := Match(t, q).value;
      && SortedBy(res.rows, RankKey(q.category))
      && forall x :: x in res.rows ==>
           NumberAt(x, q.category).Some? && QueryWindow(q).Admits(NumberAt(x, q.category).value)
  {
    forall x | x in Match(t, q).value.rows
      ensures NumberAt(x, q.category).Some? && QueryWindow(q).Admits(NumberAt(x, q.category).value)
    {
      MatchSound(t, q, x);
    }
  }

  /** A non-empty selection admits only rows whose value is selected. */
  lemma MatchRespectsSelections(t: Table, q: Query, x: Record)
    requires Answerable(t, q) && x in Match(t, q).value.rows
    ensures q.branches != {} ==> Get(x, BranchCol).Some? && Get(x, BranchCol).value in q.branches
    ensures q.districts != {} ==> Get(x, DistrictCol).Some? && Get(x, DistrictCol).value in q.districts
    ensures q.regions != {} ==> Get(x, RegionCol).Some? && Get(x, RegionCol).value in q.regions
  {
    var cols := OutputColumns(t.columns, q.category);
    MatchSound(t, q, x);
    var s :| s in t.rows && Eligible(s, q, QueryWindow(q)) && x == Shape(s, q.category, cols);
    RankColumnIsNotFixed(q.category);
    if q.branches != {} {
      assert BranchCol in ShowColumns(q.category);
      ShapeCells(s, q.category, cols, BranchCol);
    }
    if q.districts != {} {
      assert DistrictCol in ShowColumns(q.category);
      ShapeCells(s, q.category, cols, DistrictCol);
    }
    if q.regions != {} {
      assert RegionCol in ShowColumns(q.category);
      ShapeCells(s, q.category, cols, RegionCol);
    }
  }

  /** A row whose rank cell is null, blank or not a number is never eligible. */
  lemma UncoercibleRankNeverEligible(row: Record, q: Query, w: Window)
    requires Get(row, q.category).None?
      || (Get(row, q.category).value.Text? && IsBlank(Get(row, q.category).value.s))
      || (Get(row, q.category).value.Text? && ParseInt(Get(row, q.category).value.s).None?)
    ensures !Eligible(row, q, w)
  {
  }

  /** Displaying a row of a well-formed table gives a row with exactly the
      displayed columns, when the table has all of them. */
  lemma ShapeKeys(t: Table, row: Record, cat: string, cols: seq<string>)
    requires WellFormed(t) && row in t.rows && RankValue(row, cat).Some?
    requires forall c :: c in cols ==> c in t.columns
    ensures Shape(row, cat, cols).Keys == set c | c in cols
  {
    var j :| 0 <= j < |t.rows| && t.rows[j] == row;
  }

  /** In a well-formed table, every answer row has exactly the displayed columns. */
  lemma MatchRowKeys(t: Table, q: Query, x: Record)
    requires WellFormed(t) && Answerable(t, q) && x in Match(t, q).value.rows
    ensures x.Keys == set c | c in OutputColumns(t.columns, q.category)
  {
    var cols := OutputColumns(t.columns, q.category);
    MatchSound(t, q, x);
    var s :| s in t.rows && Eligible(s, q, QueryWindow(q)) && x == Shape(s, q.category, cols);
    ShapeKeys(t, s, q.category, cols);
  }

  /** A well-formed table gives a well-formed answer. */
  lemma MatchKeepsWellFormed(t: Table, q: Query)
    requires WellFormed(t) && Answerable(t, q)
    ensures WellFormed(Match(t, q).value)
  {
    MatchIsPermutationOfExpected(t, q);
    var res := Match(t, q).value;
    forall i | 0 <= i < |res.rows|
      ensures res.rows[i].Keys == set c | c in res.columns
    {
      MatchRowKeys(t, q, res.rows[i]);
    }
  }
}

=== FILE: predictor.dfy ===
/**
 * The two halves together: the report drawn from an answer of the matcher.
 */
module Predictor {
  import opened Wrappers
  import opened Text
  import opened Records
  import opened Columns
  import opened Matcher
  import opened Report

  /** The answer's rank column is not a fixed column, so the report gives it
      the 25 mm default whichever of the two rank tests picks it out. */
  lemma AnswerRankColumnWidth(t: Table, q: Query)
    requires Answerable(t, q)
    ensures var res := Match(t, q).value;
      q.category in res.columns && Widths(res.columns)[q.category] == 25
  {
    MatchIsPermutationOfExpected(t, q);
    var res := Match(t, q).value;
    assert MentionsCategory(q.category);
    RankColumnWidth(res.columns, q.category);
  }

  /** Every rank the report shows for an answer is written so that it reads
      back as a number inside the query's window. */
  lemma AnswerRanksReadBack(t: Table, q: Query, x: Record)
    requires Answerable(t, q) && x in Match(t, q).value.rows
    ensures var shown := Display(Get(x, q.category));
      ParseInt(shown).Some? && QueryWindow(q).Admits(ParseInt(shown).value)
  {
    MatchSound(t, q, x);
  }
}

=== FILE: records.dfy ===
/**
 * The cutoff table as the predictor sees it once loaded: an ordered list of
 * column names and an ordered list of rows, each row a map from column name
 * to a cell that may be null.
 */
module Records {
  import opened Wrappers

  /** A non-null cell: text as read from the sheet, or a number. */
  datatype Cell = Text(s: string) | Num(n: int)

  /** One institution/branch offering; `None` is a null (NaN) cell. */
  type Record = map<string, Option<Cell>>

  /** A data frame: column order and row order both matter. */
  datatype Table = Table(columns: seq<string>, rows: seq<Record>)

  /** `row[col]`, reading a column the row lacks as null. */
  function Get(row: Record, col: string): Option<Cell> {
    if col in row then row[col] else None
  }

  /** Every row has exactly the table's columns. */
  predicate WellFormed(t: Table) {
    forall i :: 0 <= i < |t.rows| ==> t.rows[i].Keys == set c | c in t.columns
  }
}

=== FILE: report.dfy ===
/**
 * The layout of the downloadable report: a header row of column names and
 * one row per answer row, each cell a bordered box of some width holding
 * some text. Fonts, page geometry and the document encoding are left to the
 * document library and are not part of this model.
 */
module Report {
  import opened Wrappers
  import opened Text
  import opened Records
  import opened Columns
  import opened Seqs

  /** One bordered cell: its width in millimetres and its text. */
  datatype Box = Box(width: int, text: string)

  /** The width of the first rank column and of every column not listed. */
  const RankWidth := 25
  const DefaultWidth := 25

  /** Header text keeps at most this many characters. */
  const HeaderLimit: nat := 30

  /** Body text longer than `CellLimit` keeps `CellKeep` characters and
      gains the `Ellipsis` marker. */
  const CellLimit: nat := 50
  const CellKeep: nat := 47
  const Ellipsis := "..."

  /** The widths of the fixed columns. */
  const FixedWidths: map<string, int> := map[
    InstCodeCol := 20,
    NameCol := 60,
    InstRegionCol := 20,
    DistrictCol := 25,
    RegionCol := 20,
    BranchCol := 20,
    PlaceCol := 25,
    FeeCol := 20
  ]

  /** The column the layout picks as rank column is not a fixed column. */
  lemma RankPickIsNotFixed(cols: seq<string>, k: nat)
    requires k < |cols| && EndsWithCategory(cols[k])
    ensures cols[k] !in FixedWidths
  {
    SuffixTestIsStricter(cols[k]);
    RankColumnIsNotFixed(cols[k]);
  }

  /** The width table: the fixed widths, the first suffix-tagged column at
      `RankWidth`, and every other column at `DefaultWidth`. */
  function Widths(cols: seq<string>): (w: map<string, int>)
    ensures forall c :: c in cols ==> c in w
    ensures forall c :: c in FixedWidths ==> c in w && w[c] == FixedWidths[c]
    ensures forall c :: c in w && c !in FixedWidths ==> w[c] == DefaultWidth
    ensures forall c :: c in w ==> w[c] > 0
  {
    var withRank :=
      match FirstRankIndex(cols)
      case Some(k) => (RankPickIsNotFixed(cols, k); FixedWidths[cols[k] := RankWidth])
      case None => FixedWidths;
    map c | c in withRank.Keys + (set c | c in cols) :: if c in withRank then withRank[c] else DefaultWidth
  }

  /** A rank column (by either test) gets the default width. */
  lemma RankColumnWidth(cols: seq<string>, col: string)
    requires col in cols && MentionsCategory(col)
    ensures Widths(cols)[col] == DefaultWidth
  {
    RankColumnIsNotFixed(col);
  }

  /** A column name as printed in the header. */
  function HeaderText(col: string): (r: string)
    ensures |r| <= HeaderLimit && StartsWith(col, r)
    ensures |col| <= HeaderLimit <==> r == col
    ensures |col| > HeaderLimit ==> r == col[..HeaderLimit]
  {
    Take(col, HeaderLimit)
  }

  /** A cell as text: a null cell is empty, a number is written in decimal. */
  function Display(c: Option<Cell>): (r: string)
    ensures c.None? ==> r == ""
    ensures c.Some? && c.value.Text? ==> r == c.value.s
    ensures c.Some? && c.value.Num? ==> r == ShowInt(c.value.n) && ParseInt(r) == Some(c.value.n)
  {
    match c
    case None => ""
    case Some(Text(s)) => s
    case Some(Num(n)) => (ParseShowInt(n); ShowInt(n))
  }

  /** Long text keeps its first `CellKeep` characters and ends in the marker. */
  function Clip(text: string): (r: string)
    ensures |r| <= CellLimit
    ensures |text| <= CellLimit ==> r == text
    ensures |text| > CellLimit ==>
      |r| == CellLimit && r[..CellKeep] == text[..CellKeep] && EndsWith(r, Ellipsis)
  {
    if |text| > CellLimit then text[..CellKeep] + Ellipsis else text
  }

  /** Clipping twice is clipping once. */
  lemma ClipIdempotent(text: string)
    ensures Clip(Clip(text)) == Clip(text)
  {
  }

  /** The text of a body cell. */
  function CellText(c: Option<Cell>): (r: string)
    ensures |r| <= CellLimit
    ensures c.None? ==> r == ""
    ensures |Display(c)| <= CellLimit ==> r == Display(c)
    ensures |Display(c)| > CellLimit ==> r == Display(c)[..CellKeep] + Ellipsis
  {
    Clip(Display(c))
  }

  function HeaderRow(cols: seq<string>, w: map<string, int>): (r: seq<Box>)
    requires forall c :: c in cols ==> c in w
    ensures |r| == |cols|
    ensures forall j :: 0 <= j < |cols| ==> r[j] == Box(w[cols[j]], HeaderText(cols[j]))
  {
    seq(|cols|, j requires 0 <= j < |cols| => Box(w[cols[j]], HeaderText(cols[j])))
  }

  function BodyRow(row: Record, cols: seq<string>, w: map<string, int>): (r: seq<Box>)
    requires forall c :: c in cols ==> c in w
    ensures |r| == |cols|
    ensures forall j :: 0 <= j < |cols| ==> r[j] == Box(w[cols[j]], CellText(Get(row, cols[j])))
  {
    seq(|cols|, j requires 0 <= j < |cols| => Box(w[cols[j]], CellText(Get(row, cols[j]))))
  }

  function BodyRows(rows: seq<Record>, cols: seq<string>, w: map<string, int>): (r: seq<seq<Box>>)
    requires forall c :: c in cols ==> c in w
    ensures |r| == |rows|
    ensures forall i :: 0 <= i < |rows| ==> r[i] == BodyRow(rows[i], cols, w)
  {
    seq(|rows|, i requires 0 <= i < |rows| => BodyRow(rows[i], cols, w))
  }

  /** The grid of boxes for some columns, rows and widths: the header row,
      then one row per table row in the table's order. */
  function Grid(rows: seq<Record>, cols: seq<string>, w: map<string, int>): (r: seq<seq<Box>>)
    requires forall c :: c in cols ==> c in w
    ensures |r| == |rows| + 1
    ensures forall i :: 0 <= i < |r| ==> |r[i]| == |cols|
    ensures r[0] == HeaderRow(cols, w)
    ensures forall i :: 0 <= i < |rows| ==> r[i + 1] == BodyRow(rows[i], cols, w)
  {
    [HeaderRow(cols, w)] + BodyRows(rows, cols, w)
  }

  /** The header boxes come first, one per column in column order. */
  lemma GridHeaderFirst(rows: seq<Record>, cols: seq<string>, w: map<string, int>, j: nat)
    requires forall c :: c in cols ==> c in w
    requires j < |cols|
    ensures |Flatten(Grid(rows, cols, w))| == (|rows| + 1) * |cols|
    ensures Flatten(Grid(rows, cols, w))[j] == Box(w[cols[j]], HeaderText(cols[j]))
  {
    var g := Grid(rows, cols, w);
    FlattenLength(g, |cols|);
    FlattenIndex(g, |cols|, 0, j);
    assert Offset(0, |cols|, j) == j;
  }

  /** The box of row `i` and column `j` comes after `i + 1` full rows. */
  lemma GridBodyInOrder(rows: seq<Record>, cols: seq<string>, w: map<string, int>, i: nat, j: nat)
    requires forall c :: c in cols ==> c in w
    requires i < |rows| && j < |cols|
    ensures Offset(i + 1, |cols|, j) < |Flatten(Grid(rows, cols, w))|
    ensures Flatten(Grid(rows, cols, w))[Offset(i + 1, |cols|, j)] ==
      Box(w[cols[j]], CellText(Get(rows[i], cols[j])))
  {
    var g := Grid(rows, cols, w);
    FlattenIndex(g, |cols|, i + 1, j);
    assert g[i + 1][j] == BodyRow(rows[i], cols, w)[j];
  }

  /** The table of the report, with the widths of its columns. */
  function Layout(t: Table): (r: seq<seq<Box>>)
    ensures |r| == |t.rows| + 1
    ensures forall i :: 0 <= i < |r| ==> |r[i]| == |t.columns|
  {
    Grid(t.rows, t.columns, Widths(t.columns))
  }

  /** Every box of the report has a positive width. */
  lemma LayoutWidthsPositive(t: Table, i: nat, j: nat)
    requires i < |Layout(t)| && j < |t.columns|
    ensures Layout(t)[i][j].width > 0
  {
    var w := Widths(t.columns);
    if i > 0 {
      assert Layout(t)[(i - 1) + 1] == BodyRow(t.rows[i - 1], t.columns, w);
    }
  }

  /** The boxes in the order they are emitted. */
  function Cells(t: Table): (r: seq<Box>)
    ensures |r| == (|t.rows| + 1) * |t.columns|
  {
    FlattenLength(Layout(t), |t.columns|);
    Flatten(Layout(t))
  }

  /** The report starts with the header boxes, one per column in column
      order, and holds one full row of boxes per header and body row. */
  lemma HeaderCellsFirst(t: Table, j: nat)
    requires j < |t.columns|
    ensures |Cells(t)| == (|t.rows| + 1) * |t.columns|
    ensures Cells(t)[j] == Box(Widths(t.columns)[t.columns[j]], HeaderText(t.columns[j]))
  {
    GridHeaderFirst(t.rows, t.columns, Widths(t.columns), j);
  }

  /** Body boxes are emitted row by row in table order and, within a row,
      column by column. */
  lemma BodyCellsInOrder(t: Table, i: nat, j: nat)
    requires i < |t.rows| && j < |t.columns|
    ensures Offset(i + 1, |t.columns|, j) < |Cells(t)|
    ensures Cells(t)[Offset(i + 1, |t.columns|, j)] ==
      Box(Widths(t.columns)[t.columns[j]], CellText(Get(t.rows[i], t.columns[j])))
  {
    GridBodyInOrder(t.rows, t.columns, Widths(t.columns), i, j);
  }
}

=== FILE: seqs.dfy ===
/**
 * Generic sequence operations behind the data-frame steps: a filter that
 * may also rewrite what it keeps (boolean-mask selection, column
 * assignment, projection), and sorting by an integer key.
 */
module Seqs {
  import opened Wrappers

  /** Keeps, in order, the image of every element `f` maps to `Some`. */
  function FilterMap<T, U>(xs: seq<T>, f: T -> Option<U>): (r: seq<U>)
    ensures |r| <= |xs|
    ensures forall y :: y in r ==> exists x :: x in xs && f(x) == Some(y)
    ensures forall x :: x in xs && f(x).Some? ==> f(x).value in r
  {
    if |xs| == 0 then []
    else
      (match f(xs[0]) case Some(y) => [y] case None => []) + FilterMap(xs[1..], f)
  }

  /** Runs `f`, then `g` on whatever `f` keeps. */
  function Then<T, U, V>(f: T -> Option<U>, g: U -> Option<V>): T -> Option<V> {
    x => match f(x) case None => None case Some(y) => g(y)
  }

  /** Filtering a concatenation filters each part. */
  lemma {:induction false} FilterMapAppend<T, U>(a: seq<T>, b: seq<T>, f: T -> Option<U>)
    ensures FilterMap(a + b, f) == FilterMap(a, f) + FilterMap(b, f)
    decreases |a|
  {
    if |a| > 0 {
      assert (a + b)[0] == a[0];
      assert (a + b)[1..] == a[1..] + b;
      FilterMapAppend(a[1..], b, f);
    } else {
      assert a + b == b;
    }
  }

  /** A step that keeps every element maps the sequence pointwise. */
  lemma {:induction false} FilterMapTotal<T, U>(xs: seq<T>, f: T -> Option<U>)
    requires forall x :: x in xs ==> f(x).Some?
    ensures |FilterMap(xs, f)| == |xs|
    ensures forall i :: 0 <= i < |xs| ==> FilterMap(xs, f)[i] == f(xs[i]).value
    decreases |xs|
  {
    if |xs| > 0 {
      FilterMapTotal(xs[1..], f);
      var r := FilterMap(xs, f);
      assert r == [f(xs[0]).value] + FilterMap(xs[1..], f);
      forall i | 1 <= i < |xs|
        ensures r[i] == f(xs[i]).value
      {
        assert xs[1..][i - 1] == xs[i];
      }
    }
  }

  /** Two filtering passes are one pass with the composed step. */
  lemma {:induction false} FilterMapThen<T, U, V>(xs: seq<T>, f: T -> Option<U>, g: U -> Option<V>)
    ensures FilterMap(FilterMap(xs, f), g) == FilterMap(xs, Then(f, g))
    decreases |xs|
  {
    if |xs| > 0 {
      FilterMapThen(xs[1..], f, g);
      var head := match f(xs[0]) case Some(y) => [y] case None => [];
      FilterMapAppend(head, FilterMap(xs[1..], f), g);
    }
  }

  /** Steps that agree on every element give the same result. */
  lemma {:induction false} FilterMapAgree<T, U>(xs: seq<T>, f: T -> Option<U>, g: T -> Option<U>)
    requires forall x :: x in xs ==> f(x) == g(x)
    ensures FilterMap(xs, f) == FilterMap(xs, g)
    decreases |xs|
  {
    if |xs| > 0 {
      FilterMapAgree(xs[1..], f, g);
    }
  }

  /** `r` is `s` with some elements left out, the rest in their order. */
  predicate Subsequence<T(==)>(r: seq<T>, s: seq<T>)
    decreases |s|
  {
    |r| == 0 || (|s| > 0 && ((r[0] == s[0] && Subsequence(r[1..], s[1..])) || Subsequence(r, s[1..])))
  }

  /** A step that keeps or drops elements without rewriting them selects a
      subsequence. */
  lemma {:induction false} FilterMapSubsequence<T>(xs: seq<T>, f: T -> Option<T>)
    requires forall x :: f(x).Some? ==> f(x).value == x
    ensures Subsequence(FilterMap(xs, f), xs)
    decreases |xs|
  {
    if |xs| > 0 {
      FilterMapSubsequence(xs[1..], f);
      var r := FilterMap(xs, f);
      if f(xs[0]).Some? {
        assert r[0] == xs[0] && r[1..] == FilterMap(xs[1..], f);
      } else {
        assert r == FilterMap(xs[1..], f);
      }
    }
  }

  /** A step that keeps or drops elements without rewriting them keeps
      every occurrence of a kept element and none of a dropped one. */
  lemma {:induction false} FilterMapCount<T>(xs: seq<T>, f: T -> Option<T>)
    requires forall x :: f(x).Some? ==> f(x).value == x
    ensures forall x :: multiset(FilterMap(xs, f))[x] == if f(x).Some? then multiset(xs)[x] else 0
    decreases |xs|
  {
    if |xs| > 0 {
      FilterMapCount(xs[1..], f);
      assert xs == [xs[0]] + xs[1..];
      var head := match f(xs[0]) case Some(y) => [y] case None => [];
      assert FilterMap(xs, f) == head + FilterMap(xs[1..], f);
      assert multiset(FilterMap(xs, f)) == multiset(head) + multiset(FilterMap(xs[1..], f));
      assert multiset(xs) == multiset{xs[0]} + multiset(xs[1..]);
    }
  }

  /** A step that keeps every element unchanged keeps the sequence. */
  lemma {:induction false} FilterMapKeepsAll<T>(xs: seq<T>, f: T -> Option<T>)
    requires forall x :: x in xs ==> f(x) == Some(x)
    ensures FilterMap(xs, f) == xs
    decreases |xs|
  {
    if |xs| > 0 {
      FilterMapKeepsAll(xs[1..], f);
      assert xs == [xs[0]] + xs[1..];
    }
  }

  /** Non-decreasing by `key`. */
  predicate SortedBy<T>(xs: seq<T>, key: T -> int) {
    forall i, j :: 0 <= i < j < |xs| ==> key(xs[i]) <= key(xs[j])
  }

  /** A sorted sequence stays sorted under a head no larger than its first key. */
  lemma SortedCons<T>(h: T, t: seq<T>, key: T -> int)
    requires SortedBy(t, key) && (|t| == 0 || key(h) <= key(t[0]))
    ensures SortedBy([h] + t, key)
  {
    var r := [h] + t;
    forall i, j | 0 <= i < j < |r|
      ensures key(r[i]) <= key(r[j])
    {
      if i == 0 && j > 1 {
        assert key(t[0]) <= key(t[j - 1]);
      }
    }
  }

  /** Inserts `x` into a sorted sequence before the first larger key. */
  function InsertBy<T>(x: T, xs: seq<T>, key: T -> int): (r: seq<T>)
    requires SortedBy(xs, key)
    ensures SortedBy(r, key)
    ensures multiset(r) == multiset(xs) + multiset{x}
    ensures r[0] == x || r[0] == xs[0]
    decreases |xs|
  {
    if |xs| == 0 || key(x) <= key(xs[0]) then
      SortedCons(x, xs, key);
      [x] + xs
    else
      var rest := InsertBy(x, xs[1..], key);
      assert xs == [xs[0]] + xs[1..];
      assert key(xs[0]) <= key(rest[0]);
      SortedCons(xs[0], rest, key);
      [xs[0]] + rest
  }

  /** Orders a sequence by `key`; ties are left in an order this model does
      not promise anything about. */
  function SortBy<T>(xs: seq<T>, key: T -> int): (r: seq<T>)
    ensures SortedBy(r, key)
    ensures multiset(r) == multiset(xs)
    decreases |xs|
  {
    if |xs| == 0 then []
    else
      assert xs == [xs[0]] + xs[1..];
      InsertBy(xs[0], SortBy(xs[1..], key), key)
  }

  /** The rows of a grid laid end to end. */
  function Flatten<T>(xss: seq<seq<T>>): seq<T>
    decreases |xss|
  {
    if |xss| == 0 then [] else xss[0] + Flatten(xss[1..])
  }

  /** The position of element `j` of row `i` in a flattened grid of rows of `n`. */
  function Offset(i: nat, n: nat, j: nat): nat {
    i * n + j
  }

  /** The next row starts `n` positions further on. */
  lemma OffsetNextRow(i: nat, n: nat, j: nat)
    requires i > 0
    ensures Offset(i, n, j) == n + Offset(i - 1, n, j)
  {
    assert i * n == (i - 1) * n + n;
  }

  /** A grid of rows of `n` elements each flattens to `|xss| * n` elements. */
  lemma {:induction false} FlattenLength<T>(xss: seq<seq<T>>, n: nat)
    requires forall k :: 0 <= k < |xss| ==> |xss[k]| == n
    ensures |Flatten(xss)| == |xss| * n
    decreases |xss|
  {
    if |xss| > 0 {
      FlattenLength(xss[1..], n);
      assert |xss| * n == n + (|xss| - 1) * n;
    }
  }

  /** In a grid of rows of `n` elements each, element `j` of row `i` lands
      at `Offset(i, n, j)` of the flattened grid. */
  lemma {:induction false} FlattenIndex<T>(xss: seq<seq<T>>, n: nat, i: nat, j: nat)
    requires forall k :: 0 <= k < |xss| ==> |xss[k]| == n
    requires i < |xss| && j < n
    ensures Offset(i, n, j) < |Flatten(xss)| && Flatten(xss)[Offset(i, n, j)] == xss[i][j]
    decreases |xss|
  {
    if i == 0 {
      assert Offset(0, n, j) == j;
    } else {
      FlattenIndex(xss[1..], n, i - 1, j);
      OffsetNextRow(i, n, j);
    }
  }
}

=== FILE: text.dfy ===
/**
 * The handful of Python string operations the predictor relies on:
 * `str.strip`, `str.isdigit`, `int` of a digit string, `str` of an integer,
 * substring containment (`x in s`), `str.endswith` and prefix slicing `s[:n]`.
 */
module Text {
  import opened Wrappers

  /** Python's `str.isspace`: the characters `str.strip()` removes and the
      regular-expression class `\s` matches. */
  predicate IsSpace(c: char) {
    var n := c as int;
    || (0x09 <= n <= 0x0D)
    || (0x1C <= n <= 0x20)
    || n == 0x85 || n == 0xA0 || n == 0x1680
    || (0x2000 <= n <= 0x200A)
    || n == 0x2028 || n == 0x2029 || n == 0x202F || n == 0x205F || n == 0x3000
  }

  /** Empty, or made only of whitespace. */
  predicate IsBlank(s: string) {
    forall i :: 0 <= i < |s| ==> IsSpace(s[i])
  }

  /** The number of leading whitespace characters: the index of the first
      character that is not whitespace, or `|s|`. */
  function LeadingSpaces(s: string): (k: nat)
    ensures k <= |s|
    ensures forall i :: 0 <= i < k ==> IsSpace(s[i])
    ensures k == |s| || !IsSpace(s[k])
    decreases |s|
  {
    if |s| > 0 && IsSpace(s[0]) then
      var k := LeadingSpaces(s[1..]);
      assert forall i :: 1 <= i < k + 1 ==> s[i] == s[1..][i - 1];
      k + 1
    else 0
  }

  /** The index where the trailing whitespace begins: one past the last
      character that is not whitespace, or 0. */
  function TrailingStart(s: string): (k: nat)
    ensures k <= |s|
    ensures forall i :: k <= i < |s| ==> IsSpace(s[i])
    ensures k == 0 || !IsSpace(s[k - 1])
    decreases |s|
  {
    if |s| > 0 && IsSpace(s[|s| - 1]) then TrailingStart(s[..|s| - 1]) else |s|
  }

  /** `s.strip()`: drops the leading and the trailing whitespace. */
  function Strip(s: string): (r: string)
    ensures |r| <= |s|
    ensures r == [] || (!IsSpace(r[0]) && !IsSpace(r[|r| - 1]))
    ensures r == [] <==> IsBlank(s)
  {
    var a := LeadingSpaces(s);
    if a == |s| then []
    else
      var b := TrailingStart(s);
      assert a < b;
      s[a..b]
  }

  /** A text whose ends are not whitespace is its own stripped form. */
  lemma StripUnpadded(m: string)
    requires m == [] || (!IsSpace(m[0]) && !IsSpace(m[|m| - 1]))
    ensures Strip(m) == m
  {
    if m != [] {
      assert LeadingSpaces(m) == 0;
      assert TrailingStart(m) == |m|;
    }
  }

  /** Stripping removes exactly the whitespace around a text whose ends are
      not whitespace. */
  lemma StripPadded(a: string, m: string, b: string)
    requires IsBlank(a) && IsBlank(b)
    requires m == [] || (!IsSpace(m[0]) && !IsSpace(m[|m| - 1]))
    ensures Strip(a + m + b) == m
  {
    var s := a + m + b;
    if m != [] {
      assert s[|a|] == m[0];
      assert s[|a| + |m| - 1] == m[|m| - 1];
      assert forall i :: 0 <= i < |a| ==> s[i] == a[i];
      assert forall i :: |a| + |m| <= i < |s| ==> s[i] == b[i - |a| - |m|];
      assert LeadingSpaces(s) == |a|;
      assert TrailingStart(s) == |a| + |m|;
      assert s[|a|..|a| + |m|] == m;
    } else {
      assert IsBlank(s);
    }
  }

  /** An ASCII decimal digit. */
  predicate IsDigit(c: char) {
    '0' <= c <= '9'
  }

  /** `s.isdigit()` restricted to ASCII digits: non-empty and all digits. */
  predicate IsDigits(s: string) {
    |s| > 0 && forall i :: 0 <= i < |s| ==> IsDigit(s[i])
  }

  /** The decimal value of a digit string, as `int(s)` computes it. */
  function DigitsValue(s: string): nat
    requires forall i :: 0 <= i < |s| ==> IsDigit(s[i])
    decreases |s|
  {
    if |s| == 0 then 0
    else DigitsValue(s[..|s| - 1]) * 10 + DigitValue(s[|s| - 1])
  }

  function DigitValue(c: char): (d: nat)
    requires IsDigit(c)
    ensures d < 10
  {
    c as int - '0' as int
  }

  function DigitChar(d: nat): (c: char)
    requires d < 10
    ensures IsDigit(c)
  {
    ('0' as int + d) as char
  }

  /** `str(n)` for a non-negative integer. */
  function ShowNat(n: nat): (s: string)
    ensures IsDigits(s)
    ensures s[0] == '0' ==> n == 0
    decreases n
  {
    if n < 10 then [DigitChar(n)] else ShowNat(n / 10) + [DigitChar(n % 10)]
  }

  /** `str(n)` for any integer. */
  function ShowInt(n: int): (s: string)
    ensures |s| > 0
    ensures n < 0 <==> s[0] == '-'
  {
    if n < 0 then "-" + ShowNat(-n) else ShowNat(n)
  }

  /** Reading back the decimal rendering of a natural number gives it back. */
  lemma {:induction false} ShowNatRoundTrip(n: nat)
    ensures DigitsValue(ShowNat(n)) == n
    decreases n
  {
    var s := ShowNat(n);
    if n >= 10 {
      ShowNatRoundTrip(n / 10);
      assert s[..|s| - 1] == ShowNat(n / 10);
    }
  }

  /**
   * A cell text read as an integer: optional sign, then ASCII digits.
   */
  function ParseInt(s: string): (r: Option<int>)
    ensures r.Some? <==> IsDigits(s) || (|s| > 0 && (s[0] == '-' || s[0] == '+') && IsDigits(s[1..]))
    ensures r.Some? ==> !IsBlank(s)
    ensures IsDigits(s) ==> r == Some(DigitsValue(s))
    ensures |s| > 0 && s[0] == '+' && IsDigits(s[1..]) ==> r == Some(DigitsValue(s[1..]))
    ensures |s| > 0 && s[0] == '-' && IsDigits(s[1..]) ==> r == Some(0 - DigitsValue(s[1..]))
  {
    if IsDigits(s) then Some(DigitsValue(s))
    else if |s| > 0 && s[0] == '-' && IsDigits(s[1..]) then Some(0 - DigitsValue(s[1..]))
    else if |s| > 0 && s[0] == '+' && IsDigits(s[1..]) then Some(DigitsValue(s[1..]))
    else None
  }

  /** Reading back the decimal rendering of any integer gives it back. */
  lemma ParseShowInt(n: int)
    ensures ParseInt(ShowInt(n)) == Some(n)
  {
    if n < 0 {
      var s := ShowInt(n);
      assert s[1..] == ShowNat(-n);
      ShowNatRoundTrip(-n);
    } else {
      ShowNatRoundTrip(n);
    }
  }

  /** `s.startswith(p)`. */
  predicate StartsWith(s: string, p: string) {
    |p| <= |s| && s[..|p|] == p
  }

  /** `s.endswith(p)`. */
  predicate EndsWith(s: string, p: string) {
    |p| <= |s| && s[|s| - |p|..] == p
  }

  /** `sub` occurs in `s` starting at index `i`. */
  predicate OccursAt(s: string, sub: string, i: int) {
    0 <= i && i + |sub| <= |s| && s[i..i + |sub|] == sub
  }

  /** `sub in s`: substring containment, tried at every starting position. */
  predicate Contains(s: string, sub: string)
    decreases |s|
  {
    StartsWith(s, sub) || (|s| > 0 && Contains(s[1..], sub))
  }

  /** Containment holds exactly when there is a position the text occurs at. */
  lemma {:induction false} ContainsIffOccurs(s: string, sub: string)
    ensures Contains(s, sub) <==> exists i :: OccursAt(s, sub, i)
    decreases |s|
  {
    if StartsWith(s, sub) {
      assert OccursAt(s, sub, 0);
    } else if |s| > 0 {
      ContainsIffOccurs(s[1..], sub);
      if exists i :: OccursAt(s, sub, i) {
        var i :| OccursAt(s, sub, i);
        assert i != 0;
        assert s[1..][i - 1..i - 1 + |sub|] == s[i..i + |sub|];
        assert OccursAt(s[1..], sub, i - 1);
      }
      if Contains(s[1..], sub) {
        var i :| OccursAt(s[1..], sub, i);
        assert s[1..][i..i + |sub|] == s[i + 1..i + 1 + |sub|];
        assert OccursAt(s, sub, i + 1);
      }
    }
  }

  /** A suffix is in particular a substring. */
  lemma EndsWithContains(s: string, p: string)
    requires EndsWith(s, p)
    ensures Contains(s, p)
  {
    assert OccursAt(s, p, |s| - |p|);
    ContainsIffOccurs(s, p);
  }

  /** `s[:n]`: the first `n` characters, or all of `s` when it is shorter. */
  function Take(s: string, n: nat): (r: string)
    ensures StartsWith(s, r)
    ensures |r| == if |s| <= n then |s| else n
  {
    if |s| <= n then s else s[..n]
  }
}

=== FILE: wrappers.dfy ===
/** The `Option` and `Result` datatypes the model shares. */
module Wrappers {

  /** A value that may be absent: a null cell, a missing key, a failed parse. */
  datatype Option<+T> = None | Some(value: T)

  /** The outcome of an operation that can reject its input. */
  datatype Result<+R, +E> = Ok(value: R) | Err(error: E)
}
